=== FILE: README.md ===
# Batch transfer dispatcher — a Dafny model

The program is a single Go `main` (main.go). It reads hex private keys from
`pk.txt`, one per line. For each funding account it shows the balance, asks
how many destinations to fund, and runs a loop. Each iteration of the loop
does four things:

- generates a fresh destination key;
- fetches the account's pending nonce, retrying "502 Bad Gateway" errors a
  bounded number of times;
- builds and signs one fixed-value transfer for chain 88817;
- broadcasts that transfer once.

A broadcast error is classified by the markers it contains. A handled error
sleeps for its own wait and moves on to the next iteration. Any other error
ends the run through `log.Fatalf`.

The model is purely functional. The replies of the outside world are inputs:

- the file contents;
- the result of connecting;
- the key parser;
- the balance and the typed count;
- for each account, a script of key generation, nonce and broadcast replies,
  each consumed from the front.

A run yields an `Outcome`. It holds, per funding account, the address, the
balance, the requested count and the completed iterations (`Round`s). It
also records how the run ended: `Done`, `Fatal(reason)` (one constructor per
modelled `log.Fatalf`; the cast check and the signing failure have none, see
"## Left out"), or `Stalled` when a script ran dry.

Modules follow the program's structure:

- `Base`: `Option`, Go's `uint64`, opaque addresses, and how a run ends
  (`Failure`, `End`).
- `Text`: the parts of Go's `strings` package in use.
- `KeyFile`: key-file lines, main.go:33 and 40-44.
- `NonceFetch`: the nonce retry loop, main.go:94-111.
- `Broadcast`: the error classifier and its waits, main.go:123-147.
- `Transaction`: the fixed transfer, main.go:68-83 and 114-117.
- `Dispatch`: one account's loop, main.go:85-151.
- `Program`: all of `main`, main.go:28-153.

## Behaviour of the code worth knowing

- **Handled errors move on to the next destination.** Every handled case of
  the broadcast `switch` ends in `continue`. That `continue` belongs to
  `for i := 0; i < numWallets; i++`, so it increments `i`: the nonce is not
  fetched again and the transfer is not broadcast again for that
  destination. A single "Nonce too low" therefore costs that destination.
  `Dispatch.HandledErrorAdvances` and `Dispatch.HandledThenSent` state this.
- **The underpriced backoff uses the nonce retry count.** The exponent is
  `retryCount`, the number of gateway retries of the nonce fetch in the same
  iteration. It does not count underpriced errors. So the wait is 1, 2, 4,
  8 or 16 seconds, and it is 1 second whenever the nonce came on the first
  try.
- **Nonces come from the chain.** The code uses whatever nonce
  `PendingNonceAt` returns, and nothing in it makes nonces increase. The
  model proves what the code guarantees: distinct, increasing iteration
  numbers and one broadcast per iteration.

## Model

| member | source | states |
|---|---|---|
| Text.TrimSpace | main.go:41 | the trimmed line has white space at neither end, and it is empty exactly when the line was all white space |
| Text.TrimSpaceSurrounded | main.go:41 | a string with white space at neither end, surrounded by any white space on both sides, trims to exactly that string |
| Text.TrimSpaceSlice | main.go:41 | every line is its trimmed result with white space before and after it, so trimming removes only surrounding white space; with TrimSpaceSurrounded this determines the result completely |
| Text.TrimSpaceIdempotent | main.go:41 | trimming an already trimmed line changes nothing |
| Text.TrimSpacePadded | main.go:41 | a trimmed string followed by any white space trims back to itself |
| Text.RemoveAll | main.go:41 | removing carriage returns leaves none, and exactly as many characters go as there were carriage returns |
| Text.RemoveAllMembers | main.go:41 | removal keeps every character other than the one removed, and adds none |
| Text.RemoveAllAppend | main.go:41 | removal works piece by piece on concatenated text |
| Text.Split | main.go:33 | the file splits into one more piece than it has line feeds, and no piece holds a line feed |
| Text.JoinSplit | main.go:33 | joining the pieces with line feeds gives back the file, so splitting loses nothing |
| Text.SplitJoin | main.go:33 | splitting the join of line-feed-free pieces gives back those pieces (the inverse direction) |
| Text.SplitAppend | main.go:33 | the pieces of two texts joined by a line feed are the pieces of each, in order |
| Text.SplitBlank | main.go:33 | the pieces of a blank file are blank |
| Text.Contains | main.go:99 | `strings.Contains` as used by the retry test and every `case` of the broadcast `switch`: it never finds a marker longer than the text and always finds the empty one; ContainsIff pins it down |
| Text.ContainsIff | main.go:99 | the substring scan used by every marker test succeeds exactly when the marker occurs at some position |
| Text.ContainsEmbedded | main.go:99 | text that embeds a marker contains it |
| KeyFile.Normalise | main.go:41-42 | a piece is dropped exactly when it is blank; otherwise it becomes a key line with no carriage return and no surrounding white space |
| KeyFile.NormalisePadded | main.go:41 | a key followed by spaces, tabs or carriage returns normalises to the key |
| KeyFile.NormaliseSurrounded | main.go:41 | a key with white space or carriage returns both before and after it normalises to the key |
| KeyFile.NormaliseSlice | main.go:41 | once its carriage returns are removed, every piece is its normalisation with white space before and after it; nothing else is dropped |
| KeyFile.KeepKeys | main.go:40-44 | the kept keys are no more than the pieces, and each is a key line |
| KeyFile.KeyLines | main.go:33-44 | every key handed to the parser is a normalised key line |
| KeyFile.KeepKeysSingle | main.go:40-44 | one piece yields its normalisation, or nothing when blank |
| KeyFile.KeepKeysAppend | main.go:40-44 | keys are kept piece by piece in file order; with KeepKeysSingle this pins the loop down as the order-keeping filter of normalised non-blank lines |
| KeyFile.KeyLinesAppend | main.go:33-44 | the keys of two files joined by a line feed are the keys of each, in order |
| KeyFile.KeyLinesSingleLine | main.go:33-44 | no key spans a line feed |
| KeyFile.BlankFileHasNoKeys | main.go:40-44 | a file of white space yields no keys |
| KeyFile.OneKeyAmongBlankLines | main.go:33-44 | a blank line, then one key with trailing white space and a CR LF ending, yields exactly that key |
| NonceFetch.FetchFrom | main.go:94-111 | the loop returns the nonce of the first reply that is not a gateway error, fails on the first other error, or gives up once all five attempts hit the gateway; all replies before the stopping one are gateway errors |
| NonceFetch.FetchedIff | main.go:96-107 | the fetch yields nonce `n` after `k` retries exactly when `k < 5`, the first `k` replies are gateway errors and reply `k` is `n` |
| NonceFetch.FailedIff | main.go:97-105 | the fetch is fatal on text `t` at attempt `k` exactly when the first `k` replies are gateway errors and reply `k` is an error without the marker |
| NonceFetch.ExceededIff | main.go:96-111 | "Max retries exceeded" happens exactly when the first five replies are all gateway errors |
| NonceFetch.FetchNonce | main.go:96-111 | the loop, started with `retryCount = 0`, makes at most five calls, never reads past the replies, and the replies it slept on are all gateway errors; a fetch that succeeds slept at most 20 seconds |
| NonceFetch.SleptPerGatewayError | main.go:96-111 | the seconds the loop sleeps are five times the number of gateway errors among the replies it consumed, counted independently of the loop, and other replies add nothing |
| Broadcast.Marker | main.go:127-141 | the five case strings, as written in the `switch` |
| Broadcast.MarkerInjective | main.go:127-141 | no two cases look for the same text |
| Broadcast.Classify | main.go:126-147 | a handled case's marker is in the error text and no earlier case's marker is; the default (fatal) case is taken exactly when no marker is in the text |
| Broadcast.ClassifyIff | main.go:126-147 | the classification is `e` exactly when the text holds `e`'s marker and no earlier marker (first match wins) |
| Broadcast.EmbeddedMarkerHandled | main.go:126-144 | a text embedding any marker is handled, by that case or an earlier one |
| Broadcast.ClassifiesNonceTooLow | main.go:131 | the bare text "Nonce too low" is the nonce-too-low case |
| Broadcast.Pow2 | main.go:129 | `math.Pow(2, retryCount)` for the underpriced backoff, at least one second and more than the exponent, so the wait grows with the retries; WaitValues and UnderpricedWaitDoubles give its exact values |
| Broadcast.WaitValues | main.go:127-143 | the wait is 1, 2, 4, 8 or 16 seconds when underpriced, 3 seconds on a gateway error or a known transaction, and none otherwise |
| Broadcast.UnderpricedWaitDoubles | main.go:129 | each extra nonce retry doubles the underpriced wait |
| Broadcast.Wait | main.go:129-143 | the loop moves on without sleeping exactly for "nonce too low" and low balance; a gateway error or a known transaction waits 3 seconds |
| Transaction.NewTransfer | main.go:114-117 | the transfer carries the fetched nonce, the new destination, value 427596, gas limit 22000, gas price 900000, no data, and chain ID 88817 |
| Transaction.NewTransferInjective | main.go:114 | two built transfers are equal exactly when their nonces and destinations are |
| Dispatch.Submit | main.go:123-150 | the iteration completes exactly when the broadcast succeeds or its error is classified; it records "sent" exactly on success; otherwise it records the classified case and waits `Wait(cause, retryCount)` seconds, `2^retryCount` when underpriced |
| Dispatch.Step | main.go:86-150 | a completed iteration read one new key, the nonce replies up to the successful fetch and one broadcast reply; its transfer uses that nonce and destination; it is "sent" exactly when the broadcast succeeded, and a handled error records the classified case and its wait for the nonce retries of that iteration; the nonce waits recorded are the five-second sleeps of the fetch; a stopped iteration never lets the loop finish as done |
| Dispatch.StepStopReasons | main.go:86-148 | a stopped iteration ends with the failure of its own `log.Fatalf`: key generation, nonce fetch, retries exceeded or unrecognised broadcast error; it ends `Stalled` only when a script ran dry |
| Dispatch.StepCompletesIff | main.go:86-148 | an iteration completes exactly when key generation succeeds, the nonce arrives and the broadcast succeeds or is handled |
| Dispatch.Loop | main.go:85-151 | iterations are numbered consecutively; the loop is done exactly when `max(n, 0)` iterations completed, each consuming one key and one broadcast reply |
| Dispatch.LoopUnfold | main.go:85-151 | for `i < n` the loop runs iteration `i`: a stop ends the loop with that reason and no round; a completed round is followed by the loop from `i + 1` on the unread replies |
| Dispatch.BatchProperties | main.go:85-151 | for `numWallets`: done exactly when `max(numWallets, 0)` iterations ran; the "sent" numbers strictly increase, lie in 1..numWallets, and number at most numWallets |
| Dispatch.SentNumbersIncreasing | main.go:150 | the "sent" lines of consecutive iterations carry strictly increasing numbers from their range |
| Dispatch.UnrecognisedErrorIsFatal | main.go:145-146 | an unclassified broadcast error ends the run at once, with no iteration completed from there |
| Dispatch.HandledErrorAdvances | main.go:126-144 | a handled error completes the iteration without "sent"; the loop goes on with the next number, a new key and the next broadcast reply |
| Dispatch.HandledNeverSent | main.go:126-150 | an iteration that hit a handled error never gets a "sent" line under its number |
| Dispatch.HandledThenSent | main.go:85-150 | a handled error then a success over two destinations: the first destination is skipped and the second transfer carries the second fetched nonce |
| Program.Serve | main.go:46-152 | a key the parser rejects is fatal before anything is done; a balance error is fatal with its text (main.go:62), and so is a count that does not parse (main.go:79); otherwise there is one batch, for that key, showing the account's balance and count, whose iterations and end are exactly those of the dispatch loop run on that account's replies; the run goes on exactly when that batch is complete |
| Program.Accounts | main.go:40-153 | at most one batch per key and per account's replies; every batch but the last is complete; the run succeeds exactly when every key got a complete batch |
| Program.AccountsRunOk | main.go:40-153 | batch `j` belongs to key `j`, shows account `j`'s balance and count, and holds exactly the iterations of the dispatch loop on account `j`'s replies; a run cut short inside a batch ends as that batch's loop ended, and one cut short between batches ends as serving the next key does |
| Program.AccountsCons | main.go:40-153 | the run goes past the first key only when that key was served in full, and then continues with the next account's replies |
| Program.AccountsAppend | main.go:40-153 | once the keys `p` are all served, the keys `q` are served exactly as they would be on their own, with the remaining replies |
| Program.BadKeyStopsRun | main.go:46-49 | a key the parser rejects makes the run fail with nothing done for it or later keys; when the earlier keys were served in full, the failure is the bad key |
| Program.Main | main.go:28-153 | a read failure or connection failure is fatal before any account; otherwise batch `j` belongs to key line `j` in file order and is the dispatch loop on account `j`'s replies, the run succeeds exactly when every key line got a complete batch, and a failed run ends as the dispatch loop or the serving of the key it stopped in ended, so a broadcast, key generation or nonce failure, a bad key and a balance or count error each keep their own reason |
| Program.BlankKeyFileDoesNothing | main.go:40-44 | a blank key file gives a successful run with no batches |
| Program.OneKeyOneAccount | main.go:33-57 | a file with a blank line, one key and trailing white space serves exactly one funding account, the key's, with the first account's replies, when the run succeeds |

## Left out

- Network calls are not modelled. `ethclient.Dial`, `BalanceAt`, `PendingNonceAt` and `SendTransaction` are external; their results are inputs.
- Cryptography is not modelled. `crypto.HexToECDSA` with `PubkeyToAddress` is the `parse` parameter. `crypto.GenerateKey` is reduced to the address it yields or its error. Signing pairs the transaction with its chain ID, and the transaction hash in the "sent" line is not modelled.
- The ECDSA cast check of main.go:52-55 is left out and has no `Failure` constructor, because the cast of an ECDSA key's public key cannot fail.
- The `SignTx` error path of main.go:118-120 is left out and has no `Failure` constructor, because signing is not modelled.
- Printing is left out: the balance shown in UNIT0 as a float division by 10^18 (main.go:65-66), the prompts and the log lines. The balance is kept in wei.
- The stdin read of main.go:73-77 is not modelled, and the ignored error of `ReadString` with it. `CountReply` stands for the result of `strconv.Atoi` on the trimmed line; Atoi's parsing and its 64-bit range check are not modelled.
- `rand.Seed` (main.go:82) is left out, because it affects nothing the program computes.
- Sleeps are recorded, not performed: the number of five-second nonce waits and the broadcast wait in seconds, per iteration. `math.Pow(2, k)` is exact for the k of 0 to 4 that can occur, so it is modelled as integer `2^k`.
- Text.TrimSpace: trims only the six ASCII white-space characters. Go's `strings.TrimSpace` also trims Unicode spaces such as U+0085 and U+00A0; they are left out because a hex key file does not contain them.
- `Stalled` is a modelling artefact, not a program behaviour. A script that runs dry would, in the program, mean further calls to the outside world; the model stops there instead.
- The `rpcURL` constant and the explorer link format of the "sent" line are not modelled.

=== FILE: base.dfy ===
/** Small shared vocabulary: an optional value, Go's `uint64`, the opaque
    account address produced by the cryptography library, and the ways a run
    of `main` can end. */
module Base {

  /** A value that may be missing. */
  datatype Option<+T> = None | Some(value: T)

  /** Go's `uint64`: the type of a nonce and of the gas limit. */
  type u64 = x: int | 0 <= x < 0x1_0000_0000_0000_0000

  /** A 20-byte account address. Addresses come out of key parsing and key
      generation, which are foreign cryptography; the model only compares them. */
  datatype Address = Address(id: nat)

  /** The `log.Fatalf` calls of `main` that the model reaches. The cast check
      of main.go:54 and the signing failure of main.go:119 have no constructor:
      the model's key parser and signer cannot fail in those ways. */
  datatype Failure =
    | ReadFailed(text: string)        // main.go:31
    | DialFailed(text: string)        // main.go:37
    | BadKey                          // main.go:48
    | BalanceFailed(text: string)     // main.go:62
    | BadCount(text: string)          // main.go:79
    | KeyGenFailed(text: string)      // main.go:88
    | NonceFailed(text: string)       // main.go:104
    | NonceRetriesExceeded            // main.go:110
    | SendFailed(text: string)        // main.go:146

  /** How a piece of the run ends: it ran to completion, the process exited
      through `log.Fatalf`, or a script ran dry. */
  datatype End = Done | Fatal(reason: Failure) | Stalled
}

=== FILE: broadcast.dfy ===
/** Classification of a failed `SendTransaction` (main.go:123-147): a
    case-sensitive, first-match scan of the error text for five markers, each
    with its own wait before the loop moves on; any other text is fatal. */
module Broadcast {
  import opened Base
  import opened Text

  /** The handled broadcast errors, in the order the `switch` tests them. */
  datatype SendError =
    | Underpriced       // "Replacement transaction underpriced"
    | NonceTooLow       // "Nonce too low"
    | LowBalance        // "Upfront cost exceeds account balance"
    | BadGateway        // "502 Bad Gateway"
    | KnownTransaction  // "Known transaction"

  /** The text each case looks for. */
  function Marker(e: SendError): string {
    match e
    case Underpriced => "Replacement transaction underpriced"
    case NonceTooLow => "Nonce too low"
    case LowBalance => "Upfront cost exceeds account balance"
    case BadGateway => "502 Bad Gateway"
    case KnownTransaction => "Known transaction"
  }

  /** Each case looks for its own text. */
  lemma MarkerInjective(d: SendError, e: SendError)
    requires Marker(d) == Marker(e)
    ensures d == e
  {
  }

  /** Position of the case in the `switch`. */
  function Rank(e: SendError): nat {
    match e
    case Underpriced => 0
    case NonceTooLow => 1
    case LowBalance => 2
    case BadGateway => 3
    case KnownTransaction => 4
  }

  /** The `switch` of main.go:126-147: the first case whose marker the error
      text contains, or `None` for the fatal `default`. */
  function Classify(text: string): (r: Option<SendError>)
    ensures r.Some? ==> Contains(text, Marker(r.value))
    ensures r.Some? ==> forall e :: Rank(e) < Rank(r.value) ==> !Contains(text, Marker(e))
    ensures r.None? <==> forall e :: !Contains(text, Marker(e))
  {
    if Contains(text, Marker(Underpriced)) then Some(Underpriced)
    else if Contains(text, Marker(NonceTooLow)) then Some(NonceTooLow)
    else if Contains(text, Marker(LowBalance)) then Some(LowBalance)
    else if Contains(text, Marker(BadGateway)) then Some(BadGateway)
    else if Contains(text, Marker(KnownTransaction)) then Some(KnownTransaction)
    else None
  }

  /** `2^k`, the value of `math.Pow(2, float64(k))` for a small `k`. */
  function Pow2(k: nat): (p: nat)
    ensures p >= 1 && p > k
  {
    if k == 0 then 1 else 2 * Pow2(k - 1)
  }

  /** Seconds slept before the loop moves on, given the number of gateway
      retries the nonce fetch of the same iteration needed. */
  function Wait(e: SendError, retryCount: nat): (w: nat)
    ensures w == 0 <==> e == NonceTooLow || e == LowBalance
    ensures e == BadGateway || e == KnownTransaction ==> w == 3
  {
    match e
    case Underpriced => Pow2(retryCount)
    case NonceTooLow => 0
    case LowBalance => 0
    case BadGateway => 3
    case KnownTransaction => 3
  }

  /** The classification is the earliest contained marker and nothing else:
      `Classify` returns `e` exactly when the text contains `e`'s marker and
      no marker of an earlier case. */
  lemma ClassifyIff(text: string, e: SendError)
    ensures Classify(text) == Some(e) <==>
      Contains(text, Marker(e)) && forall d :: Rank(d) < Rank(e) ==> !Contains(text, Marker(d))
  {
    if Contains(text, Marker(e)) && forall d :: Rank(d) < Rank(e) ==> !Contains(text, Marker(d)) {
      var r := Classify(text);
      assert r.Some?;
      RankInjective(r.value, e);
    }
  }

  lemma RankInjective(d: SendError, e: SendError)
    requires Rank(d) == Rank(e)
    ensures d == e
  {
  }

  /** A text that embeds a marker is handled, by that case or an earlier one. */
  lemma EmbeddedMarkerHandled(pre: string, e: SendError, post: string)
    ensures Classify(pre + Marker(e) + post).Some?
    ensures Rank(Classify(pre + Marker(e) + post).value) <= Rank(e)
  {
    ContainsEmbedded(pre, Marker(e), post);
  }

  /** The waits of main.go:129-143 for any retry count the nonce fetch can
      leave behind: 1, 2, 4, 8 or 16 seconds when underpriced, 3 seconds on a
      gateway error or a known transaction, none otherwise. */
  lemma WaitValues(e: SendError, retryCount: nat)
    requires retryCount < 5
    ensures e == Underpriced ==> Wait(e, retryCount) in {1, 2, 4, 8, 16}
    ensures e == BadGateway || e == KnownTransaction ==> Wait(e, retryCount) == 3
    ensures e == NonceTooLow || e == LowBalance ==> Wait(e, retryCount) == 0
  {
    if e == Underpriced {
      assert Pow2(1) == 2 && Pow2(2) == 4 && Pow2(3) == 8 && Pow2(4) == 16;
    }
  }

  /** The underpriced wait doubles with each retry of the nonce fetch. */
  lemma {:induction false} UnderpricedWaitDoubles(retryCount: nat)
    ensures Wait(Underpriced, retryCount + 1) == 2 * Wait(Underpriced, retryCount)
  {
  }

  /** A marker longer than the text cannot occur in it. */
  lemma NotContainedWhenLonger(text: string, marker: string)
    requires |text| < |marker|
    ensures !Contains(text, marker)
  {
    ContainsIff(text, marker);
  }

  /** The bare text "Nonce too low" is classified as such. */
  lemma ClassifiesNonceTooLow()
    ensures Classify("Nonce too low") == Some(NonceTooLow)
  {
    NotContainedWhenLonger("Nonce too low", Marker(Underpriced));
    ContainsEmbedded([], Marker(NonceTooLow), []);
    assert [] + Marker(NonceTooLow) + [] == "Nonce too low";
  }
}

=== FILE: dispatch.dfy ===
/** The per-account loop `for i := 0; i < numWallets; i++` (main.go:85-151).
    Each iteration generates a destination key, fetches the pending nonce
    with bounded retry, builds and signs one transfer, and broadcasts it once.
    A broadcast that succeeds prints a "sent" line numbered `i+1`. A handled
    broadcast error sleeps and then `continue`s; that `continue` sits inside a
    `switch` inside the `for i` loop, so it advances `i`. The transfer is not
    broadcast again and the nonce is not fetched again for that `i`. Any other
    failure ends the whole run.

    The replies of key generation, `PendingNonceAt` and `SendTransaction` are
    given as three scripts, each consumed from the front. A script that runs
    dry halts the model (`Stalled`); the program itself would keep calling. */
module Dispatch {
  import opened Base
  import opened NonceFetch
  import opened Broadcast
  import opened Transaction

  /** One reply of `crypto.GenerateKey`, reduced to the derived address. */
  datatype KeyGenReply = NewKey(address: Address) | KeyGenErr(text: string)

  /** One reply of `SendTransaction`. */
  datatype SendReply = SendOk | SendErr(text: string)

  /** The replies the loop will receive, in call order. */
  datatype Script = Script(keys: seq<KeyGenReply>, nonces: seq<NonceReply>, sends: seq<SendReply>)

  /** How a completed iteration ended: the "sent" line of main.go:150, or a
      handled broadcast error with the seconds slept before moving on. */
  datatype Result = SentOk | Handled(cause: SendError, seconds: nat)

  /** One completed iteration, printed as number `number` (that is, `i+1`):
      how many `GatewayWait`-second nonce waits it slept, the one transfer it
      broadcast, and how the broadcast ended. */
  datatype Round = Round(number: nat, nonceWaits: nat, stx: SignedTx, result: Result)

  /** One iteration either completes, leaving the unread replies, or stops
      the run. */
  datatype StepResult = Next(round: Round, rest: Script) | Stop(end: End)

  /** The completed iterations of the loop, how it ended, and the unread replies. */
  datatype Trace = Trace(rounds: seq<Round>, end: End, rest: Script)

  /** What every completed iteration satisfies: fewer nonce waits than the
      retry bound, a transfer with the fixed parameters, and the wait of
      main.go:129-143 for a handled error. */
  predicate RoundOk(r: Round) {
    && r.nonceWaits < MaxRetries
    && IsTransfer(r.stx, r.stx.tx.nonce, r.stx.tx.to)
    && match r.result
       case SentOk => true
       case Handled(cause, sec) =>
         && (cause == Underpriced ==> sec in {1, 2, 4, 8, 16})
         && (cause == BadGateway || cause == KnownTransaction ==> sec == 3)
         && (cause == NonceTooLow || cause == LowBalance ==> sec == 0)
  }

  // ---------------------------------------------------------------------------
  // One iteration

  /** The broadcast of one built transfer and the classification of its reply. */
  function Submit(number: nat, retryCount: nat, stx: SignedTx, reply: SendReply): (r: Option<Round>)
    requires retryCount < MaxRetries && IsTransfer(stx, stx.tx.nonce, stx.tx.to)
    ensures r.Some? ==> RoundOk(r.value) && r.value.number == number && r.value.stx == stx
    ensures r.Some? ==> r.value.nonceWaits == retryCount
    ensures r.None? <==> reply.SendErr? && Classify(reply.text).None?
    ensures r.Some? && r.value.result.SentOk? <==> reply.SendOk?
    ensures r.Some? && r.value.result.Handled? ==>
      && reply.SendErr? && Classify(reply.text) == Some(r.value.result.cause)
      && r.value.result.seconds == Wait(r.value.result.cause, retryCount)
  {
    match reply
    case SendOk => Some(Round(number, retryCount, stx, SentOk))
    case SendErr(t) =>
      match Classify(t)
      case None => None
      case Some(cause) =>
        WaitValues(cause, retryCount);
        Some(Round(number, retryCount, stx, Handled(cause, Wait(cause, retryCount))))
  }

  /** Iteration `i`, printed as `i+1`. */
  function Step(i: nat, s: Script): (r: StepResult)
    ensures r.Stop? ==> !r.end.Done?
    ensures r.Next? ==>
      && RoundOk(r.round) && r.round.number == i + 1
      && |s.keys| > 0 && s.keys[0].NewKey? && r.rest.keys == s.keys[1..]
      && FetchNonce(s.nonces).Fetched?
      && r.round.stx == NewTransfer(FetchNonce(s.nonces).nonce, s.keys[0].address)
      && r.round.nonceWaits == FetchNonce(s.nonces).retryCount
      && SleptSeconds(FetchNonce(s.nonces)) == GatewayWait * r.round.nonceWaits
      && r.rest.nonces == s.nonces[FetchNonce(s.nonces).retryCount + 1..]
      && |s.sends| > 0 && r.rest.sends == s.sends[1..]
      && (r.round.result.SentOk? <==> s.sends[0].SendOk?)
      && (r.round.result.Handled? ==>
            && Classify(s.sends[0].text) == Some(r.round.result.cause)
            && r.round.result.seconds == Wait(r.round.result.cause, r.round.nonceWaits))
  {
    if |s.keys| == 0 then Stop(Stalled)
    else match s.keys[0]
      case KeyGenErr(t) => Stop(Fatal(KeyGenFailed(t)))
      case NewKey(to) =>
        var f := FetchNonce(s.nonces);
        match f
        case RetriesExceeded => Stop(Fatal(NonceRetriesExceeded))
        case FetchFailed(t, _) => Stop(Fatal(NonceFailed(t)))
        case NoReply(_) => Stop(Stalled)
        case Fetched(nonce, retryCount) =>
          if |s.sends| == 0 then Stop(Stalled)
          else
            match Submit(i + 1, retryCount, NewTransfer(nonce, to), s.sends[0])
            case None => Stop(Fatal(SendFailed(s.sends[0].text)))
            case Some(round) =>
              Next(round, Script(s.keys[1..], s.nonces[retryCount + 1..], s.sends[1..]))
  }

  // ---------------------------------------------------------------------------
  // The loop

  /** Iterations `i` up to `n - 1`, stopping at the first that does not
      complete: the completed ones are numbered consecutively from `i+1`, and
      the loop is done exactly when all of them completed, each having read
      one generated key and one broadcast reply. */
  function Loop(i: nat, n: int, s: Script): (t: Trace)
    ensures |t.rounds| <= Max0(n - i)
    ensures forall j :: 0 <= j < |t.rounds| ==> t.rounds[j].number == i + 1 + j && RoundOk(t.rounds[j])
    ensures t.end.Done? <==> |t.rounds| == Max0(n - i)
    ensures t.end.Done? ==>
      |t.rest.keys| + |t.rounds| == |s.keys| && |t.rest.sends| + |t.rounds| == |s.sends|
    decreases n - i
  {
    if n <= i then Trace([], Done, s)
    else
      match Step(i, s)
      case Stop(end) => Trace([], end, s)
      case Next(round, rest) =>
        var u := Loop(i + 1, n, rest);
        Trace([round] + u.rounds, u.end, u.rest)
  }

  /** `max(x, 0)`. */
  function Max0(x: int): nat {
    if x < 0 then 0 else x
  }

  /** Numbers on the "sent" lines, in order. */
  function SentNumbers(rounds: seq<Round>): seq<nat> {
    if rounds == [] then []
    else (if rounds[0].result.SentOk? then [rounds[0].number] else []) + SentNumbers(rounds[1..])
  }

  /** Strictly increasing. */
  predicate Increasing(xs: seq<nat>) {
    forall j, l :: 0 <= j < l < |xs| ==> xs[j] < xs[l]
  }

  /** Rounds numbered consecutively from `first`. */
  predicate Consecutive(rounds: seq<Round>, first: nat) {
    forall j :: 0 <= j < |rounds| ==> rounds[j].number == first + j
  }

  /** The "sent" lines of consecutively numbered rounds carry strictly
      increasing numbers from the rounds' range. */
  lemma {:induction false} SentNumbersIncreasing(rounds: seq<Round>, first: nat)
    requires Consecutive(rounds, first)
    ensures Increasing(SentNumbers(rounds))
    ensures forall j :: 0 <= j < |SentNumbers(rounds)| ==>
      first <= SentNumbers(rounds)[j] < first + |rounds|
  {
    if rounds != [] {
      SentNumbersIncreasing(rounds[1..], first + 1);
    }
  }

  /** Strictly increasing numbers in `[lo, hi)` number at most `hi - lo`. */
  lemma {:induction false} IncreasingCountBound(xs: seq<nat>, lo: int, hi: int)
    requires Increasing(xs)
    requires forall j :: 0 <= j < |xs| ==> lo <= xs[j] < hi
    ensures |xs| <= Max0(hi - lo)
    decreases |xs|
  {
    if xs != [] {
      IncreasingCountBound(xs[1..], xs[0] + 1, hi);
    }
  }

  /** The loop of main.go:85 for `numWallets` destinations: done exactly when
      it ran `max(numWallets, 0)` iterations with one broadcast each; the
      "sent" lines carry strictly increasing numbers from 1 to `numWallets`,
      at most `numWallets` of them. */
  lemma BatchProperties(numWallets: int, s: Script)
    ensures var t := Loop(0, numWallets, s);
      && (t.end.Done? <==> |t.rounds| == Max0(numWallets))
      && (t.end.Done? ==> |t.rest.sends| + Max0(numWallets) == |s.sends|)
      && Increasing(SentNumbers(t.rounds))
      && (forall j :: 0 <= j < |SentNumbers(t.rounds)| ==> 1 <= SentNumbers(t.rounds)[j] <= numWallets)
      && |SentNumbers(t.rounds)| <= Max0(numWallets)
  {
    var t := Loop(0, numWallets, s);
    SentNumbersIncreasing(t.rounds, 1);
    IncreasingCountBound(SentNumbers(t.rounds), 1, numWallets + 1);
  }

  // ---------------------------------------------------------------------------
  // What ends an iteration

  /** An iteration completes exactly when key generation succeeds, the nonce
      arrives within the retry bound, and the broadcast either succeeds or
      fails with a handled error. */
  lemma StepCompletesIff(i: nat, s: Script)
    ensures Step(i, s).Next? <==>
      && |s.keys| > 0 && s.keys[0].NewKey?
      && FetchNonce(s.nonces).Fetched?
      && |s.sends| > 0
      && (s.sends[0].SendOk? || Classify(s.sends[0].text).Some?)
  {
  }

  /** Why an iteration stops: each `log.Fatalf` of the loop body for its own
      failure, and `Stalled` only when a script has run dry. */
  lemma StepStopReasons(i: nat, s: Script)
    ensures |s.keys| == 0 ==> Step(i, s) == Stop(Stalled)
    ensures |s.keys| > 0 && s.keys[0].KeyGenErr? ==>
      Step(i, s) == Stop(Fatal(KeyGenFailed(s.keys[0].text)))
    ensures |s.keys| > 0 && s.keys[0].NewKey? ==>
      match FetchNonce(s.nonces)
      case RetriesExceeded => Step(i, s) == Stop(Fatal(NonceRetriesExceeded))
      case FetchFailed(t, _) => Step(i, s) == Stop(Fatal(NonceFailed(t)))
      case NoReply(_) => Step(i, s) == Stop(Stalled)
      case Fetched(_, _) =>
        if |s.sends| == 0 then Step(i, s) == Stop(Stalled)
        else if s.sends[0].SendErr? && Classify(s.sends[0].text).None? then
          Step(i, s) == Stop(Fatal(SendFailed(s.sends[0].text)))
        else Step(i, s).Next?
    ensures Step(i, s) == Stop(Stalled) ==>
      |s.keys| == 0 || FetchNonce(s.nonces).NoReply? || |s.sends| == 0
  {
  }

  /** The loop runs one iteration and then the rest: a stopped iteration ends
      the loop with what stopped it, and a completed one is followed by the
      loop from the next number on the unread replies. */
  lemma LoopUnfold(i: nat, n: int, s: Script)
    requires i < n
    ensures match Step(i, s)
      case Stop(e) => Loop(i, n, s) == Trace([], e, s)
      case Next(round, rest) =>
        var u := Loop(i + 1, n, rest);
        Loop(i, n, s) == Trace([round] + u.rounds, u.end, u.rest)
  {
  }

  /** A broadcast error none of the cases recognises ends the whole run at
      once: no iteration of the loop completes from there on. */
  lemma UnrecognisedErrorIsFatal(i: nat, n: int, s: Script)
    requires i < n
    requires |s.keys| > 0 && s.keys[0].NewKey? && FetchNonce(s.nonces).Fetched?
    requires |s.sends| > 0 && s.sends[0].SendErr? && Classify(s.sends[0].text).None?
    ensures Loop(i, n, s) == Trace([], Fatal(SendFailed(s.sends[0].text)), s)
  {
  }

  /** A handled broadcast error completes the iteration without a "sent" line;
      the loop goes on with the next number, a new destination key, a new
      nonce fetch and the next broadcast reply. */
  lemma HandledErrorAdvances(i: nat, n: int, s: Script)
    requires i < n
    requires |s.keys| > 0 && s.keys[0].NewKey? && FetchNonce(s.nonces).Fetched?
    requires |s.sends| > 0 && s.sends[0].SendErr? && Classify(s.sends[0].text).Some?
    ensures var t := Loop(i, n, s); var c := Classify(s.sends[0].text).value;
      && |t.rounds| >= 1 && t.rounds[0].number == i + 1
      && t.rounds[0].result == Handled(c, Wait(c, t.rounds[0].nonceWaits))
      && t.rounds[1..] == Loop(i + 1, n, Step(i, s).rest).rounds
      && Step(i, s).rest.keys == s.keys[1..] && Step(i, s).rest.sends == s.sends[1..]
  {
  }

  /** A handled error is never followed by a "sent" line for the same number:
      the numbers of the rounds of one loop are all different. */
  lemma HandledNeverSent(i: nat, n: int, s: Script, j: nat, l: nat)
    requires j < |Loop(i, n, s).rounds| && l < |Loop(i, n, s).rounds|
    requires Loop(i, n, s).rounds[j].result.Handled? && Loop(i, n, s).rounds[l].result.SentOk?
    ensures Loop(i, n, s).rounds[l].number != Loop(i, n, s).rounds[j].number
  {
  }

  /** A handled error (for instance "Nonce too low", see
      `Broadcast.ClassifiesNonceTooLow`) on the first of two destinations and
      success on the second: the first destination is skipped, not retried,
      and the second transfer carries the nonce of the second fetch. */
  lemma HandledThenSent(a: Address, b: Address, n1: u64, n2: u64, text: string)
    requires Classify(text).Some?
    ensures var cause := Classify(text).value;
      Loop(0, 2, Script([NewKey(a), NewKey(b)], [NonceOk(n1), NonceOk(n2)], [SendErr(text), SendOk]))
      == Trace([Round(1, 0, NewTransfer(n1, a), Handled(cause, Wait(cause, 0))),
                Round(2, 0, NewTransfer(n2, b), SentOk)],
               Done, Script([], [], []))
  {
    var cause := Classify(text).value;
    var s := Script([NewKey(a), NewKey(b)], [NonceOk(n1), NonceOk(n2)], [SendErr(text), SendOk]);
    var rest := Script([NewKey(b)], [NonceOk(n2)], [SendOk]);
    var done := Script([], [], []);
    var r1 := Round(1, 0, NewTransfer(n1, a), Handled(cause, Wait(cause, 0)));
    var r2 := Round(2, 0, NewTransfer(n2, b), SentOk);
    assert FetchNonce(s.nonces) == Fetched(n1, 0);
    assert Step(0, s) == Next(r1, rest);
    assert FetchNonce(rest.nonces) == Fetched(n2, 0);
    assert Step(1, rest) == Next(r2, done);
    assert Loop(2, 2, done) == Trace([], Done, done);
    assert Loop(1, 2, rest) == Trace([r2], Done, done);
  }
}

=== FILE: keyfile.dfy ===
/** The key file: one hex-encoded private key per line (main.go:33, 40-44).
    The text is split on line feeds; each piece loses its carriage returns
    and surrounding white space; pieces that end up empty are skipped. */
module KeyFile {
  import opened Text

  /** What one piece of the key file becomes before it is parsed as a key:
      empty exactly when the piece is blank, otherwise a key line. */
  function Normalise(line: string): (k: string)
    ensures k == [] <==> AllSpace(line)
    ensures k != [] ==> IsKeyLine(k)
  {
    var stripped := RemoveAll(line, '\r');
    BlankAfterRemoval(line, stripped);
    TrimSpaceKeepsOut(stripped, '\r');
    TrimSpace(stripped)
  }

  /** Normalising introduces no character. */
  lemma NormaliseKeepsOut(line: string, c: char)
    requires c !in line
    ensures c !in Normalise(line)
  {
    var stripped := RemoveAll(line, '\r');
    RemoveAllMembers(line, '\r', c);
    TrimSpaceKeepsOut(stripped, c);
  }

  /** Removing carriage returns, which are white space, keeps a piece blank
      exactly when it was blank. */
  lemma BlankAfterRemoval(line: string, stripped: string)
    requires stripped == RemoveAll(line, '\r')
    ensures AllSpace(stripped) <==> AllSpace(line)
  {
    if AllSpace(stripped) {
      forall i | 0 <= i < |line|
        ensures IsSpace(line[i])
      {
        if line[i] != '\r' {
          RemoveAllMembers(line, '\r', line[i]);
        }
      }
    }
    if AllSpace(line) {
      forall i | 0 <= i < |stripped|
        ensures IsSpace(stripped[i])
      {
        RemoveAllMembers(line, '\r', stripped[i]);
      }
    }
  }

  /** A line that is handed to the key parser: non-empty, free of carriage
      returns, with white space at neither end. */
  predicate IsKeyLine(k: string) {
    k != [] && '\r' !in k && !IsSpace(k[0]) && !IsSpace(k[|k| - 1])
  }

  /** The normalised non-blank pieces, in order. */
  function KeepKeys(pieces: seq<string>): (keys: seq<string>)
    ensures |keys| <= |pieces|
    ensures forall j :: 0 <= j < |keys| ==> IsKeyLine(keys[j])
  {
    if pieces == [] then []
    else
      var k := Normalise(pieces[0]);
      var rest := KeepKeys(pieces[1..]);
      if k == [] then rest
      else
        var keys := [k] + rest;
        assert forall j :: 1 <= j < |keys| ==> keys[j] == rest[j - 1];
        keys
  }

  /** The keys of a key file, in file order. */
  function KeyLines(text: string): (keys: seq<string>)
    ensures forall j :: 0 <= j < |keys| ==> IsKeyLine(keys[j])
  {
    KeepKeys(Split(text, '\n'))
  }

  /** No key spans a line feed. */
  lemma KeyLinesSingleLine(text: string)
    ensures forall j :: 0 <= j < |KeyLines(text)| ==> '\n' !in KeyLines(text)[j]
  {
    KeepKeysKeepsOut(Split(text, '\n'), '\n');
  }

  /** One piece on its own yields its normalisation, or nothing when blank. */
  lemma KeepKeysSingle(p: string)
    ensures KeepKeys([p]) == if AllSpace(p) then [] else [Normalise(p)]
  {
    assert [p][1..] == [];
  }

  /** Keeping is piecewise: the keys of two runs of pieces are the keys of
      the first run followed by the keys of the second. With `KeepKeysSingle`
      this pins `KeepKeys` down as the order-preserving filter-map. */
  lemma {:induction false} KeepKeysAppend(p: seq<string>, q: seq<string>)
    ensures KeepKeys(p + q) == KeepKeys(p) + KeepKeys(q)
  {
    if p == [] {
      assert p + q == q;
    } else {
      assert (p + q)[1..] == p[1..] + q;
      KeepKeysAppend(p[1..], q);
    }
  }

  /** Keeping introduces no character that no piece holds. */
  lemma {:induction false} KeepKeysKeepsOut(pieces: seq<string>, c: char)
    requires forall i :: 0 <= i < |pieces| ==> c !in pieces[i]
    ensures forall j :: 0 <= j < |KeepKeys(pieces)| ==> c !in KeepKeys(pieces)[j]
  {
    if pieces != [] {
      KeepKeysKeepsOut(pieces[1..], c);
      NormaliseKeepsOut(pieces[0], c);
    }
  }

  /** A file of nothing but white space holds no keys. */
  lemma BlankFileHasNoKeys(text: string)
    requires AllSpace(text)
    ensures KeyLines(text) == []
  {
    SplitBlank(text, '\n');
    BlankPiecesKeepNothing(Split(text, '\n'));
  }

  lemma {:induction false} BlankPiecesKeepNothing(pieces: seq<string>)
    requires forall i :: 0 <= i < |pieces| ==> AllSpace(pieces[i])
    ensures KeepKeys(pieces) == []
  {
    if pieces != [] {
      BlankPiecesKeepNothing(pieces[1..]);
    }
  }

  /** Keys of two files joined by a line feed are the keys of each, in order. */
  lemma KeyLinesAppend(a: string, b: string)
    ensures KeyLines(a + "\n" + b) == KeyLines(a) + KeyLines(b)
  {
    SplitAppend(a, b, '\n');
    KeepKeysAppend(Split(a, '\n'), Split(b, '\n'));
  }

  /** A key followed by white space (carriage returns included) normalises
      back to the key. */
  lemma NormalisePadded(key: string, pad: string)
    requires IsKeyLine(key) && AllSpace(pad)
    ensures Normalise(key + pad) == key
  {
    RemoveAllAppend(key, pad, '\r');
    RemoveAllAbsent(key, '\r');
    var rest := RemoveAll(pad, '\r');
    BlankAfterRemoval(pad, rest);
    TrimSpacePadded(key, rest);
  }

  /** A key with any white space, carriage returns included, before and
      after it normalises to the key. */
  lemma NormaliseSurrounded(lead: string, key: string, pad: string)
    requires AllSpace(lead) && IsKeyLine(key) && AllSpace(pad)
    ensures Normalise(lead + key + pad) == key
  {
    RemoveAllAppend(lead + key, pad, '\r');
    RemoveAllAppend(lead, key, '\r');
    RemoveAllAbsent(key, '\r');
    var before := RemoveAll(lead, '\r');
    var after := RemoveAll(pad, '\r');
    BlankAfterRemoval(lead, before);
    BlankAfterRemoval(pad, after);
    TrimSpaceSurrounded(before, key, after);
  }

  /** Every piece, once its carriage returns are gone, is its normalisation
      surrounded by white space: nothing but white space and carriage returns
      is lost. */
  lemma NormaliseSlice(line: string) returns (lead: string, trail: string)
    ensures AllSpace(lead) && AllSpace(trail)
    ensures RemoveAll(line, '\r') == lead + Normalise(line) + trail
  {
    lead, trail := TrimSpaceSlice(RemoveAll(line, '\r'));
  }

  /** A file holding one key between a blank first line and trailing white
      space with a DOS line ending yields exactly that key. */
  lemma OneKeyAmongBlankLines(key: string, pad: string)
    requires IsKeyLine(key) && '\n' !in key
    requires AllSpace(pad) && '\n' !in pad
    ensures KeyLines("\n" + key + pad + "\r\n") == [key]
  {
    var line := key + (pad + "\r");
    assert '\n' !in line;
    SplitNoSeparator(line, '\n');
    NormalisePadded(key, pad + "\r");
    KeepKeysSingle(line);
    assert KeyLines(line) == [key];
    BlankFileHasNoKeys("");
    KeyLinesAppend(line, "");
    KeyLinesAppend("", line + "\n" + "");
    OneKeyShape(key, pad);
  }

  /** The file of `OneKeyAmongBlankLines` as two line feeds around one line. */
  lemma OneKeyShape(key: string, pad: string)
    ensures "" + "\n" + ((key + (pad + "\r")) + "\n" + "") == "\n" + key + pad + "\r\n"
  {
    var line := key + (pad + "\r");
    SeqAssoc(key, pad, "\r");
    SeqAssoc("\n", key, pad);
    SeqAssoc("\n" + key + pad, "\r", "\n");
    SeqAssoc("\n", line, "\n");
    SeqAssoc("\n", key, pad + "\r");
  }
}

=== FILE: nonce.dfy ===
/** Nonce acquisition before each transfer (main.go:94-111): up to
    `MaxRetries` calls of `PendingNonceAt`; an error whose text contains
    "502 Bad Gateway" waits `GatewayWait` seconds and tries again, any other
    error is fatal at once, and a loop that ends with all attempts used is
    fatal as well. The replies of the remote endpoint are given as a script,
    consumed from the front. */
module NonceFetch {
  import opened Base
  import opened Text

  /** `maxRetries` (main.go:25). */
  const MaxRetries: nat := 5

  /** The error text that makes a failed call worth retrying. */
  const GatewayMarker: string := "502 Bad Gateway"

  /** Seconds slept after a gateway error (main.go:101). */
  const GatewayWait: nat := 5

  /** One reply of `PendingNonceAt`. */
  datatype NonceReply = NonceOk(nonce: u64) | NonceErr(text: string)

  /** How the retry loop ends. */
  datatype Fetch =
    | Fetched(nonce: u64, retryCount: nat)    // `break` with this nonce; `retryCount` gateway errors before it
    | FetchFailed(text: string, retryCount: nat) // another error on attempt `retryCount`: "Failed to get the nonce"
    | RetriesExceeded                          // every attempt hit the gateway: "Max retries exceeded"
    | NoReply(retryCount: nat)                 // the script ran out after `retryCount` gateway errors

  /** A reply the loop retries. */
  predicate IsGatewayError(r: NonceReply) {
    r.NonceErr? && Contains(r.text, GatewayMarker)
  }

  /** Replies `lo` up to `hi` are all gateway errors. */
  predicate GatewayRun(replies: seq<NonceReply>, lo: nat, hi: nat)
    requires hi <= |replies|
  {
    forall j :: lo <= j < hi ==> IsGatewayError(replies[j])
  }

  /** The loop from attempt `retryCount` on, the replies before it having
      been consumed. */
  function FetchFrom(replies: seq<NonceReply>, retryCount: nat): (f: Fetch)
    requires retryCount <= MaxRetries && retryCount <= |replies|
    ensures f.Fetched? ==>
      && retryCount <= f.retryCount < MaxRetries && f.retryCount < |replies|
      && replies[f.retryCount] == NonceOk(f.nonce)
      && GatewayRun(replies, retryCount, f.retryCount)
    ensures f.FetchFailed? ==>
      && retryCount <= f.retryCount < MaxRetries && f.retryCount < |replies|
      && replies[f.retryCount] == NonceErr(f.text) && !IsGatewayError(replies[f.retryCount])
      && GatewayRun(replies, retryCount, f.retryCount)
    ensures f.RetriesExceeded? ==>
      MaxRetries <= |replies| && GatewayRun(replies, retryCount, MaxRetries)
    ensures f.NoReply? ==>
      retryCount <= f.retryCount == |replies| < MaxRetries && GatewayRun(replies, retryCount, |replies|)
    decreases MaxRetries - retryCount
  {
    if retryCount == MaxRetries then RetriesExceeded
    else if retryCount == |replies| then NoReply(retryCount)
    else match replies[retryCount]
      case NonceOk(n) => Fetched(n, retryCount)
      case NonceErr(t) =>
        if Contains(t, GatewayMarker) then FetchFrom(replies, retryCount + 1)
        else FetchFailed(t, retryCount)
  }

  /** The whole retry loop, starting with `retryCount = 0`: it never makes
      more than `MaxRetries` calls, never consumes a reply the script does not
      hold, and sleeps once per gateway error. */
  function FetchNonce(replies: seq<NonceReply>): (f: Fetch)
    ensures Attempts(f) <= MaxRetries && Attempts(f) <= |replies|
    ensures GatewayRun(replies, 0, GatewayWaits(f))
    ensures f.Fetched? ==> SleptSeconds(f) <= GatewayWait * (MaxRetries - 1)
  {
    FetchFrom(replies, 0)
  }

  /** How many replies the loop consumes. */
  function Attempts(f: Fetch): nat {
    match f
    case Fetched(_, k) => k + 1
    case FetchFailed(_, k) => k + 1
    case RetriesExceeded => MaxRetries
    case NoReply(k) => k
  }

  /** How many gateway errors the loop slept on. */
  function GatewayWaits(f: Fetch): nat {
    match f
    case Fetched(_, k) => k
    case FetchFailed(_, k) => k
    case RetriesExceeded => MaxRetries
    case NoReply(k) => k
  }

  /** Seconds the loop sleeps: `GatewayWait` for every gateway error, so at
      most four sleeps before a nonce arrives and five before giving up. */
  function SleptSeconds(f: Fetch): (sec: nat)
    ensures sec % GatewayWait == 0 && sec / GatewayWait == GatewayWaits(f)
    ensures f.RetriesExceeded? ==> sec == GatewayWait * MaxRetries
  {
    GatewayWait * GatewayWaits(f)
  }

  /** How many of the replies are gateway errors. */
  function GatewayCount(rs: seq<NonceReply>): (c: nat)
    ensures c <= |rs|
  {
    if rs == [] then 0
    else GatewayCount(rs[..|rs| - 1]) + (if IsGatewayError(rs[|rs| - 1]) then 1 else 0)
  }

  /** The loop sleeps `GatewayWait` seconds for each gateway error among the
      replies it consumed, and for nothing else. */
  lemma SleptPerGatewayError(replies: seq<NonceReply>)
    ensures var f := FetchNonce(replies);
      SleptSeconds(f) == GatewayWait * GatewayCount(replies[..Attempts(f)])
  {
    var f := FetchNonce(replies);
    match f
    case Fetched(_, k) =>
      GatewayPrefix(replies, k);
      LastNotGateway(replies, k);
    case FetchFailed(_, k) =>
      GatewayPrefix(replies, k);
      LastNotGateway(replies, k);
    case RetriesExceeded =>
      GatewayPrefix(replies, MaxRetries);
    case NoReply(k) =>
      GatewayPrefix(replies, k);
  }

  /** A run of `k` gateway errors from the start counts `k`. */
  lemma {:induction false} GatewayPrefix(replies: seq<NonceReply>, k: nat)
    requires k <= |replies| && GatewayRun(replies, 0, k)
    ensures GatewayCount(replies[..k]) == k
  {
    if k > 0 {
      assert replies[..k][..k - 1] == replies[..k - 1];
      GatewayPrefix(replies, k - 1);
    }
  }

  /** Appending a reply that is not a gateway error leaves the count alone. */
  lemma LastNotGateway(replies: seq<NonceReply>, k: nat)
    requires k < |replies| && !IsGatewayError(replies[k])
    ensures GatewayCount(replies[..k + 1]) == GatewayCount(replies[..k])
  {
    assert replies[..k + 1][..k] == replies[..k];
  }

  /** The loop succeeds with nonce `n` after `k` retries exactly when the
      first `k` replies are gateway errors, reply `k` carries `n`, and
      `k` is below the retry bound. */
  lemma FetchedIff(replies: seq<NonceReply>, n: u64, k: nat)
    ensures FetchNonce(replies) == Fetched(n, k) <==>
      k < MaxRetries && k < |replies| && GatewayRun(replies, 0, k) && replies[k] == NonceOk(n)
  {
    if k < MaxRetries && k < |replies| && GatewayRun(replies, 0, k) && replies[k] == NonceOk(n) {
      FirstNonGateway(replies, 0, k);
    }
  }

  /** The loop is fatal on error text `t` at attempt `k` exactly when the first
      `k` replies are gateway errors and reply `k` is another error. */
  lemma FailedIff(replies: seq<NonceReply>, t: string, k: nat)
    ensures FetchNonce(replies) == FetchFailed(t, k) <==>
      k < MaxRetries && k < |replies| && GatewayRun(replies, 0, k)
      && replies[k] == NonceErr(t) && !Contains(t, GatewayMarker)
  {
    if k < MaxRetries && k < |replies| && GatewayRun(replies, 0, k)
      && replies[k] == NonceErr(t) && !Contains(t, GatewayMarker)
    {
      FirstNonGateway(replies, 0, k);
    }
  }

  /** The retry budget runs out exactly when the first `MaxRetries` replies
      are all gateway errors. */
  lemma ExceededIff(replies: seq<NonceReply>)
    ensures FetchNonce(replies) == RetriesExceeded <==>
      MaxRetries <= |replies| && GatewayRun(replies, 0, MaxRetries)
  {
    if MaxRetries <= |replies| && GatewayRun(replies, 0, MaxRetries) {
      AllGateway(replies, 0);
    }
  }

  /** A run of gateway errors followed by another reply: the loop stops there. */
  lemma {:induction false} FirstNonGateway(replies: seq<NonceReply>, start: nat, k: nat)
    requires start <= k < MaxRetries && k < |replies|
    requires GatewayRun(replies, start, k) && !IsGatewayError(replies[k])
    ensures FetchFrom(replies, start) ==
      match replies[k]
      case NonceOk(n) => Fetched(n, k)
      case NonceErr(t) => FetchFailed(t, k)
    decreases k - start
  {
    if start < k {
      assert IsGatewayError(replies[start]);
      FirstNonGateway(replies, start + 1, k);
    }
  }

  /** Gateway errors all the way to the bound exhaust the loop. */
  lemma {:induction false} AllGateway(replies: seq<NonceReply>, start: nat)
    requires start <= MaxRetries <= |replies|
    requires GatewayRun(replies, start, MaxRetries)
    ensures FetchFrom(replies, start) == RetriesExceeded
    decreases MaxRetries - start
  {
    if start < MaxRetries {
      assert IsGatewayError(replies[start]);
      AllGateway(replies, start + 1);
    }
  }
}

=== FILE: program.dfy ===
/** `main` as a whole (main.go:28-153): read the key file, connect, then for
    each key line in file order parse the key, show its balance, read how
    many destinations to fund, and run the dispatch loop for them. Every
    `log.Fatalf` ends the run. The file contents, the connection, the key
    parser, the balance and count replies and the per-account scripts are
    inputs. */
module Program {
  import opened Base
  import opened Text
  import opened KeyFile
  import opened Dispatch

  /** Result of `ioutil.ReadFile("pk.txt")`. */
  datatype FileReply = FileData(text: string) | FileErr(text: string)

  /** Result of `BalanceAt` for the funding account. */
  datatype BalanceReply = BalanceOk(wei: nat) | BalanceErr(text: string)

  /** Result of `strconv.Atoi` on the line typed at the prompt. */
  datatype CountReply = CountOk(count: int) | CountErr(text: string)

  /** The replies that concern one funding account. */
  datatype Account = Account(balance: BalanceReply, numWallets: CountReply, script: Script)

  /** The work done for one funding account: its address, the balance
      printed, the count asked for, and the completed iterations. */
  datatype Batch = Batch(from: Address, balance: nat, numWallets: int, rounds: seq<Round>)

  /** All batches, the last possibly cut short, and how the run ended. */
  datatype Outcome = Outcome(batches: seq<Batch>, end: End)

  /** A batch that completed all the iterations it was asked for and so
      printed the separator line of main.go:152. */
  predicate Complete(b: Batch) {
    |b.rounds| == Max0(b.numWallets)
  }

  /** What each batch satisfies whatever happens: it belongs to the key at
      its position, it shows the balance and count of the account at that
      position, and its rounds are those of the dispatch loop run on that
      account's replies, numbered from 1 and well formed. */
  predicate BatchOk(b: Batch, key: string, a: Account, parse: string -> Option<Address>) {
    && parse(key) == Some(b.from)
    && a.balance == BalanceOk(b.balance)
    && a.numWallets == CountOk(b.numWallets)
    && b.rounds == Loop(0, b.numWallets, a.script).rounds
    && |b.rounds| <= Max0(b.numWallets)
    && forall j :: 0 <= j < |b.rounds| ==> b.rounds[j].number == j + 1 && RoundOk(b.rounds[j])
  }

  /** Serving one key line (main.go:46-152), `parse` standing for
      `crypto.HexToECDSA` followed by `PubkeyToAddress`: at most one batch,
      and the run goes on only when that batch is complete. */
  function Serve(key: string, parse: string -> Option<Address>, accounts: seq<Account>): (o: Outcome)
    ensures |o.batches| <= 1
    ensures |o.batches| == 1 ==> accounts != [] && BatchOk(o.batches[0], key, accounts[0], parse)
    ensures o.end.Done? <==> |o.batches| == 1 && Complete(o.batches[0])
    ensures o.end.Done? ==> accounts != []
    ensures parse(key).None? ==> o == Outcome([], Fatal(BadKey))
    ensures parse(key).Some? && accounts == [] ==> o == Outcome([], Stalled)
    ensures parse(key).Some? && accounts != [] && accounts[0].balance.BalanceErr? ==>
      o == Outcome([], Fatal(BalanceFailed(accounts[0].balance.text)))
    ensures parse(key).Some? && accounts != [] && accounts[0].balance.BalanceOk?
            && accounts[0].numWallets.CountErr? ==>
      o == Outcome([], Fatal(BadCount(accounts[0].numWallets.text)))
    ensures parse(key).Some? && accounts != [] && accounts[0].balance.BalanceOk?
            && accounts[0].numWallets.CountOk? ==>
      && |o.batches| == 1
      && o.end == Loop(0, accounts[0].numWallets.count, accounts[0].script).end
  {
    match parse(key)
    case None => Outcome([], Fatal(BadKey))
    case Some(from) =>
      if accounts == [] then Outcome([], Stalled)
      else match accounts[0].balance
        case BalanceErr(t) => Outcome([], Fatal(BalanceFailed(t)))
        case BalanceOk(wei) =>
          match accounts[0].numWallets
          case CountErr(t) => Outcome([], Fatal(BadCount(t)))
          case CountOk(n) =>
            var t := Loop(0, n, accounts[0].script);
            Outcome([Batch(from, wei, n, t.rounds)], t.end)
  }

  /** Batch `j` of a run over the key lines `keys` is the dispatch loop for
      key `j` on account `j`'s replies. */
  predicate BatchesOk(o: Outcome, keys: seq<string>, parse: string -> Option<Address>, accounts: seq<Account>) {
    && |o.batches| <= |keys| && |o.batches| <= |accounts|
    && forall j :: 0 <= j < |o.batches| ==> BatchOk(o.batches[j], keys[j], accounts[j], parse)
  }

  /** A run cut short inside its last batch ends as that batch's loop ended. */
  predicate EndsInside(o: Outcome, accounts: seq<Account>) {
    0 < |o.batches| <= |accounts| && !Complete(o.batches[|o.batches| - 1]) ==>
      o.end == Loop(0, o.batches[|o.batches| - 1].numWallets, accounts[|o.batches| - 1].script).end
  }

  /** A run cut short between batches ends as serving the next key ended. */
  predicate EndsBetween(o: Outcome, keys: seq<string>, parse: string -> Option<Address>, accounts: seq<Account>) {
    !o.end.Done? && |o.batches| <= |accounts| && (|o.batches| == 0 || Complete(o.batches[|o.batches| - 1])) ==>
      |o.batches| < |keys| && o.end == Serve(keys[|o.batches|], parse, accounts[|o.batches|..]).end
  }

  /** What a run over the key lines `keys` with the replies `accounts`
      satisfies: batch `j` is the dispatch loop for key `j` on account `j`'s
      replies, every batch but the last is complete, the run is done exactly
      when every key got a complete batch, and a run that stops ends as the
      piece of `main` it stopped in ended: the loop of an incomplete last
      batch, or else the serving of the next key. */
  predicate RunOk(o: Outcome, keys: seq<string>, parse: string -> Option<Address>, accounts: seq<Account>) {
    && BatchesOk(o, keys, parse, accounts)
    && (forall j :: 0 <= j < |o.batches| - 1 ==> Complete(o.batches[j]))
    && (o.end.Done? <==> |o.batches| == |keys| && forall j :: 0 <= j < |o.batches| ==> Complete(o.batches[j]))
    && EndsInside(o, accounts)
    && EndsBetween(o, keys, parse, accounts)
  }

  /** The loop over key lines (main.go:40-153): each key is served with the
      next account's replies, and the run stops at the first key that is not
      served in full. `AccountsRunOk` proves the rest of `RunOk` for it. */
  function Accounts(keys: seq<string>, parse: string -> Option<Address>, accounts: seq<Account>): (o: Outcome)
    ensures |o.batches| <= |keys| && |o.batches| <= |accounts|
    ensures forall j :: 0 <= j < |o.batches| - 1 ==> Complete(o.batches[j])
    ensures o.end.Done? <==> |o.batches| == |keys| && forall j :: 0 <= j < |o.batches| ==> Complete(o.batches[j])
  {
    if keys == [] then Outcome([], Done)
    else
      var first := Serve(keys[0], parse, accounts);
      if !first.end.Done? then first
      else
        var o := Accounts(keys[1..], parse, accounts[1..]);
        CompleteCons(first.batches[0], o.batches);
        Outcome(first.batches + o.batches, o.end)
  }

  /** A batch followed by others: all are complete exactly when the first is
      and the others are, and the same holds for all but the last. */
  lemma CompleteCons(b: Batch, bs: seq<Batch>)
    ensures (forall j :: 0 <= j < |[b] + bs| ==> Complete(([b] + bs)[j])) <==>
      Complete(b) && forall j :: 0 <= j < |bs| ==> Complete(bs[j])
    ensures Complete(b) ==>
      ((forall j :: 0 <= j < |[b] + bs| - 1 ==> Complete(([b] + bs)[j])) <==>
       forall j :: 0 <= j < |bs| - 1 ==> Complete(bs[j]))
  {
    var c := [b] + bs;
    assert c[0] == b;
    if forall j :: 0 <= j < |c| - 1 ==> Complete(c[j]) {
      forall j | 0 <= j < |bs| - 1 ensures Complete(bs[j]) {
        assert c[j + 1] == bs[j];
      }
    }
    if Complete(b) && forall j :: 0 <= j < |bs| - 1 ==> Complete(bs[j]) {
      forall j | 0 < j < |c| - 1 ensures Complete(c[j]) {
        assert c[j] == bs[j - 1];
      }
    }
    if forall j :: 0 <= j < |c| ==> Complete(c[j]) {
      forall j | 0 <= j < |bs| ensures Complete(bs[j]) {
        assert c[j + 1] == bs[j];
      }
    }
    if Complete(b) && forall j :: 0 <= j < |bs| ==> Complete(bs[j]) {
      forall j | 0 < j < |c| ensures Complete(c[j]) {
        assert c[j] == bs[j - 1];
      }
    }
  }

  /** Every run of the key loop satisfies `RunOk`: each batch is its key's
      dispatch loop on its account's replies, and a failed run ends with the
      failure of the loop or key it stopped in. */
  lemma {:induction false} AccountsRunOk(keys: seq<string>, parse: string -> Option<Address>, accounts: seq<Account>)
    ensures RunOk(Accounts(keys, parse, accounts), keys, parse, accounts)
  {
    if keys == [] {
    } else if Serve(keys[0], parse, accounts).end.Done? {
      AccountsRunOk(keys[1..], parse, accounts[1..]);
      ConsRunOk(keys, parse, accounts);
    } else {
      StopRunOk(keys, parse, accounts);
    }
  }

  /** A run that stops at its first key is that key's serving, which
      satisfies `RunOk`. */
  lemma StopRunOk(keys: seq<string>, parse: string -> Option<Address>, accounts: seq<Account>)
    requires keys != [] && !Serve(keys[0], parse, accounts).end.Done?
    ensures RunOk(Accounts(keys, parse, accounts), keys, parse, accounts)
  {
    assert accounts[0..] == accounts;
  }

  /** `RunOk` carries over from the tail of the keys to the whole when the
      first key is served in full. */
  lemma ConsRunOk(keys: seq<string>, parse: string -> Option<Address>, accounts: seq<Account>)
    requires keys != [] && Serve(keys[0], parse, accounts).end.Done?
    requires RunOk(Accounts(keys[1..], parse, accounts[1..]), keys[1..], parse, accounts[1..])
    ensures RunOk(Accounts(keys, parse, accounts), keys, parse, accounts)
  {
    var first := Serve(keys[0], parse, accounts);
    var rest := Accounts(keys[1..], parse, accounts[1..]);
    var b := first.batches[0];
    assert first.batches == [b];
    assert Accounts(keys, parse, accounts) == Outcome([b] + rest.batches, rest.end);
    ConsBatches(b, rest, keys, parse, accounts);
    ConsEndInside(b, rest, accounts);
    ConsEndBetween(b, rest, keys, parse, accounts);
  }

  /** A batch for the first key in front of batches for the later keys. */
  lemma ConsBatches(b: Batch, rest: Outcome, keys: seq<string>, parse: string -> Option<Address>, accounts: seq<Account>)
    requires keys != [] && accounts != [] && BatchOk(b, keys[0], accounts[0], parse)
    requires BatchesOk(rest, keys[1..], parse, accounts[1..])
    ensures BatchesOk(Outcome([b] + rest.batches, rest.end), keys, parse, accounts)
  {
    var bs := [b] + rest.batches;
    forall j | 0 <= j < |bs|
      ensures BatchOk(bs[j], keys[j], accounts[j], parse)
    {
      if j > 0 {
        assert bs[j] == rest.batches[j - 1];
        assert keys[1..][j - 1] == keys[j] && accounts[1..][j - 1] == accounts[j];
      }
    }
  }

  /** A complete batch in front keeps a cut inside the last batch attributed
      to that batch's loop. */
  lemma ConsEndInside(b: Batch, rest: Outcome, accounts: seq<Account>)
    requires accounts != [] && Complete(b)
    requires EndsInside(rest, accounts[1..])
    ensures EndsInside(Outcome([b] + rest.batches, rest.end), accounts)
  {
    var bs := [b] + rest.batches;
    var k := |bs|;
    if 0 < |rest.batches| && k <= |accounts| {
      assert bs[k - 1] == rest.batches[|rest.batches| - 1];
      assert accounts[1..][|rest.batches| - 1] == accounts[k - 1];
    }
  }

  /** A complete batch in front keeps a cut between batches attributed to
      the serving of the next key. */
  lemma ConsEndBetween(b: Batch, rest: Outcome, keys: seq<string>, parse: string -> Option<Address>, accounts: seq<Account>)
    requires keys != [] && accounts != [] && Complete(b)
    requires EndsBetween(rest, keys[1..], parse, accounts[1..])
    ensures EndsBetween(Outcome([b] + rest.batches, rest.end), keys, parse, accounts)
  {
    var bs := [b] + rest.batches;
    var r := |rest.batches|;
    if r > 0 {
      assert bs[r] == rest.batches[r - 1];
    }
    if r + 1 <= |accounts| && r < |keys| - 1 {
      assert keys[1..][r] == keys[r + 1];
      DropDrop(accounts, 1, r);
    }
  }

  /** `main`: read the key file, connect (`dial` is the error of
      `ethclient.Dial`, if any), then serve every key line. */
  function Main(file: FileReply, dial: Option<string>, parse: string -> Option<Address>,
                accounts: seq<Account>): (o: Outcome)
    ensures file.FileErr? ==> o == Outcome([], Fatal(ReadFailed(file.text)))
    ensures file.FileData? && dial.Some? ==> o == Outcome([], Fatal(DialFailed(dial.value)))
    ensures file.FileData? && dial.None? ==> RunOk(o, KeyLines(file.text), parse, accounts)
  {
    match file
    case FileErr(t) => Outcome([], Fatal(ReadFailed(t)))
    case FileData(text) =>
      if dial.Some? then Outcome([], Fatal(DialFailed(dial.value)))
      else
        AccountsRunOk(KeyLines(text), parse, accounts);
        Accounts(KeyLines(text), parse, accounts)
  }

  /** A key file of blank lines gives a run that does nothing and succeeds,
      once the connection is up. */
  lemma BlankKeyFileDoesNothing(text: string, parse: string -> Option<Address>, accounts: seq<Account>)
    requires AllSpace(text)
    ensures Main(FileData(text), None, parse, accounts) == Outcome([], Done)
  {
    BlankFileHasNoKeys(text);
  }

  /** A key file with one key between a blank line and trailing white space
      serves exactly one funding account when the run succeeds. */
  lemma OneKeyOneAccount(key: string, pad: string, parse: string -> Option<Address>, accounts: seq<Account>)
    requires IsKeyLine(key) && '\n' !in key
    requires AllSpace(pad) && '\n' !in pad
    ensures var o := Main(FileData("\n" + key + pad + "\r\n"), None, parse, accounts);
      o.end.Done? ==> |o.batches| == 1 && BatchOk(o.batches[0], key, accounts[0], parse)
  {
    OneKeyAmongBlankLines(key, pad);
  }

  /** A key the parser rejects ends the run there: the run fails, nothing is
      done for that key or after it, and when every key before it was served
      in full the failure is the rejected key. */
  lemma {:induction false} BadKeyStopsRun(keys: seq<string>, parse: string -> Option<Address>, accounts: seq<Account>, k: nat)
    requires k < |keys| && parse(keys[k]).None?
    ensures var o := Accounts(keys, parse, accounts);
      && !o.end.Done?
      && |o.batches| <= k
      && (|o.batches| == k && (forall j :: 0 <= j < k ==> Complete(o.batches[j])) ==> o.end == Fatal(BadKey))
    decreases k
  {
    if k > 0 && accounts != [] && Serve(keys[0], parse, accounts).end.Done? {
      BadKeyStopsRun(keys[1..], parse, accounts[1..], k - 1);
      CompleteCons(Serve(keys[0], parse, accounts).batches[0], Accounts(keys[1..], parse, accounts[1..]).batches);
    }
  }

  /** The first key line is served before the others are looked at, and the
      run goes past it only when it is served in full. */
  lemma AccountsCons(keys: seq<string>, parse: string -> Option<Address>, accounts: seq<Account>)
    requires keys != []
    ensures Accounts(keys, parse, accounts).end.Done? ==> Serve(keys[0], parse, accounts).end.Done?
    ensures Serve(keys[0], parse, accounts).end.Done? ==>
      && accounts != []
      && Accounts(keys, parse, accounts) ==
        var rest := Accounts(keys[1..], parse, accounts[1..]);
        Outcome(Serve(keys[0], parse, accounts).batches + rest.batches, rest.end)
  {
  }

  /** Serving keys `p` then `q`, one step in: the first key of `p` comes
      first either way. */
  lemma AppendStep(p: seq<string>, q: seq<string>, parse: string -> Option<Address>, accounts: seq<Account>)
    requires p != [] && Accounts(p, parse, accounts).end.Done?
    ensures accounts != [] && Accounts(p[1..], parse, accounts[1..]).end.Done?
    ensures Accounts(p, parse, accounts).batches ==
      Serve(p[0], parse, accounts).batches + Accounts(p[1..], parse, accounts[1..]).batches
    ensures Accounts(p + q, parse, accounts) ==
      var rest := Accounts(p[1..] + q, parse, accounts[1..]);
      Outcome(Serve(p[0], parse, accounts).batches + rest.batches, rest.end)
  {
    AccountsCons(p, parse, accounts);
    ConsAppend(p, q);
    AccountsCons(p + q, parse, accounts);
  }

  /** The inductive step of `AccountsAppend`: the claim for the tail of `p`
      gives the claim for `p`. */
  lemma AppendCombine(p: seq<string>, q: seq<string>, parse: string -> Option<Address>, accounts: seq<Account>)
    requires p != [] && Accounts(p, parse, accounts).end.Done?
    requires accounts != [] && |p| - 1 <= |accounts| - 1
    requires Accounts(p[1..] + q, parse, accounts[1..]) ==
      var rest := Accounts(q, parse, accounts[1..][|p| - 1..]);
      Outcome(Accounts(p[1..], parse, accounts[1..]).batches + rest.batches, rest.end)
    ensures |p| <= |accounts|
    ensures Accounts(p + q, parse, accounts) ==
      var rest := Accounts(q, parse, accounts[|p|..]);
      Outcome(Accounts(p, parse, accounts).batches + rest.batches, rest.end)
  {
    AppendStep(p, q, parse, accounts);
    var first := Serve(p[0], parse, accounts).batches;
    var tail := Accounts(p[1..], parse, accounts[1..]).batches;
    var rest := Accounts(q, parse, accounts[|p|..]);
    assert accounts[1..][|p| - 1..] == accounts[|p|..];
    assert Accounts(p[1..] + q, parse, accounts[1..]) == Outcome(tail + rest.batches, rest.end);
    SeqAssoc(first, tail, rest.batches);
  }

  /** A run that succeeds also succeeds from its second key on, with the
      replies of the accounts after the first. */
  lemma TailDone(p: seq<string>, parse: string -> Option<Address>, accounts: seq<Account>)
    requires p != [] && Accounts(p, parse, accounts).end.Done?
    ensures accounts != [] && Accounts(p[1..], parse, accounts[1..]).end.Done?
  {
    AccountsCons(p, parse, accounts);
  }

  /** Serving no keys and then `q` is serving `q`. */
  lemma AppendNil(p: seq<string>, q: seq<string>, parse: string -> Option<Address>, accounts: seq<Account>)
    requires p == []
    ensures Accounts(p + q, parse, accounts) ==
      var rest := Accounts(q, parse, accounts[|p|..]);
      Outcome(Accounts(p, parse, accounts).batches + rest.batches, rest.end)
  {
    assert p + q == q && accounts[|p|..] == accounts;
    assert [] + Accounts(q, parse, accounts).batches == Accounts(q, parse, accounts).batches;
  }

  /** Accounts are served one after another with nothing carried over: once
      the keys `p` are all served, the keys `q` are served as they would be
      on their own, with the replies left over. */
  lemma {:induction false} AccountsAppend(p: seq<string>, q: seq<string>, parse: string -> Option<Address>, accounts: seq<Account>)
    requires Accounts(p, parse, accounts).end.Done?
    ensures |p| <= |accounts|
    ensures Accounts(p + q, parse, accounts) ==
      var rest := Accounts(q, parse, accounts[|p|..]);
      Outcome(Accounts(p, parse, accounts).batches + rest.batches, rest.end)
  {
    if p == [] {
      AppendNil(p, q, parse, accounts);
    } else {
      TailDone(p, parse, accounts);
      AccountsAppend(p[1..], q, parse, accounts[1..]);
      AppendCombine(p, q, parse, accounts);
    }
  }
}

=== FILE: text.dfy ===
/** The few functions of Go's `strings` package that the program relies on:
    `Split` on a one-character separator, `ReplaceAll` of one character by
    nothing, `TrimSpace`, and `Contains`. Strings are sequences of characters;
    white space is the ASCII subset of Go's `unicode.IsSpace`. */
module Text {

  /** White space as Go's `TrimSpace` sees it, restricted to ASCII:
      tab, line feed, vertical tab, form feed, carriage return and space. */
  predicate IsSpace(c: char) {
    c == ' ' || c == '\t' || c == '\n' || c == '\U{B}' || c == '\U{C}' || c == '\r'
  }

  /** Every character of `s` is white space (vacuously true of ""). */
  predicate AllSpace(s: string) {
    forall i :: 0 <= i < |s| ==> IsSpace(s[i])
  }

  /** Number of occurrences of `c` in `s`. */
  function Count(s: string, c: char): nat {
    if s == [] then 0 else (if s[0] == c then 1 else 0) + Count(s[1..], c)
  }

  // ---------------------------------------------------------------------------
  // Trimming

  /** Drops the leading white space. */
  function TrimLeft(s: string): (r: string)
    ensures |r| <= |s|
    ensures r == [] || !IsSpace(r[0])
    ensures r == [] <==> AllSpace(s)
  {
    if |s| > 0 && IsSpace(s[0]) then TrimLeft(s[1..]) else s
  }

  /** Drops the trailing white space. */
  function TrimRight(s: string): (r: string)
    ensures |r| <= |s|
    ensures r == [] || !IsSpace(r[|r| - 1])
    ensures r == [] <==> AllSpace(s)
  {
    if |s| > 0 && IsSpace(s[|s| - 1]) then TrimRight(s[..|s| - 1]) else s
  }

  /** Go's `strings.TrimSpace` on ASCII white space: the result is the
      slice of `s` between its leading and its trailing white space. */
  function TrimSpace(s: string): (r: string)
    ensures r == [] || (!IsSpace(r[0]) && !IsSpace(r[|r| - 1]))
    ensures r == [] <==> AllSpace(s)
  {
    var left := TrimLeft(s);
    assert left != [] ==> !IsSpace(left[0]);
    TrimRightPrefix(left);
    TrimRight(left)
  }

  /** What `TrimLeft` keeps is a suffix. */
  lemma {:induction false} TrimLeftSuffix(s: string)
    ensures TrimLeft(s) == s[|s| - |TrimLeft(s)|..]
  {
    if |s| > 0 && IsSpace(s[0]) {
      TrimLeftSuffix(s[1..]);
    }
  }

  /** What `TrimRight` keeps is a prefix. */
  lemma {:induction false} TrimRightPrefix(s: string)
    ensures TrimRight(s) == s[..|TrimRight(s)|]
  {
    if |s| > 0 && IsSpace(s[|s| - 1]) {
      TrimRightPrefix(s[..|s| - 1]);
    }
  }

  /** Trimming introduces no character. */
  lemma TrimSpaceKeepsOut(s: string, c: char)
    requires c !in s
    ensures c !in TrimSpace(s)
  {
    var left := TrimLeft(s);
    TrimLeftSuffix(s);
    var r := TrimRight(left);
    TrimRightPrefix(left);
    forall j | 0 <= j < |r|
      ensures r[j] != c
    {
      assert r[j] == s[|s| - |left| + j];
    }
  }

  lemma {:induction false} TrimLeftOfNonSpace(s: string)
    requires s == [] || !IsSpace(s[0])
    ensures TrimLeft(s) == s
  {
  }

  /** Trailing white space is exactly what `TrimRight` removes. */
  lemma {:induction false} TrimRightPadded(s: string, pad: string)
    requires s == [] || !IsSpace(s[|s| - 1])
    requires AllSpace(pad)
    ensures TrimRight(s + pad) == s
    decreases |pad|
  {
    if pad != [] {
      var t := s + pad;
      assert t[..|t| - 1] == s + pad[..|pad| - 1];
      TrimRightPadded(s, pad[..|pad| - 1]);
    } else {
      assert s + pad == s;
    }
  }

  /** A string with white space on neither end, followed by white space,
      trims back to itself. */
  lemma TrimSpacePadded(s: string, pad: string)
    requires s == [] || (!IsSpace(s[0]) && !IsSpace(s[|s| - 1]))
    requires AllSpace(pad)
    ensures TrimSpace(s + pad) == s
  {
    if s == [] {
      assert s + pad == pad;
    } else {
      TrimLeftOfNonSpace(s + pad);
      TrimRightPadded(s, pad);
    }
  }

  /** Leading white space is exactly what `TrimLeft` removes. */
  lemma {:induction false} TrimLeftPadded(lead: string, s: string)
    requires AllSpace(lead)
    requires s == [] || !IsSpace(s[0])
    ensures TrimLeft(lead + s) == s
    decreases |lead|
  {
    if lead == [] {
      assert lead + s == s;
      TrimLeftOfNonSpace(s);
    } else {
      ConsAppend(lead, s);
      TrimLeftPadded(lead[1..], s);
    }
  }

  /** Go's `TrimSpace` removes the white space around a string and nothing
      else: a string with white space on neither end, surrounded by any white
      space, trims back to itself. */
  lemma TrimSpaceSurrounded(lead: string, s: string, trail: string)
    requires AllSpace(lead) && AllSpace(trail)
    requires s == [] || (!IsSpace(s[0]) && !IsSpace(s[|s| - 1]))
    ensures TrimSpace(lead + s + trail) == s
  {
    SeqAssoc(lead, s, trail);
    if s == [] {
      assert lead + s + trail == lead + trail;
      assert AllSpace(lead + trail) by {
        forall i | 0 <= i < |lead + trail|
          ensures IsSpace((lead + trail)[i])
        {
          if i < |lead| {
            assert (lead + trail)[i] == lead[i];
          } else {
            assert (lead + trail)[i] == trail[i - |lead|];
          }
        }
      }
    } else {
      ConsAppend(s, trail);
      TrimLeftPadded(lead, s + trail);
      TrimRightPadded(s, trail);
    }
  }

  /** What `TrimLeft` drops is white space. */
  lemma {:induction false} TrimLeftSplit(s: string) returns (lead: string)
    ensures AllSpace(lead) && s == lead + TrimLeft(s)
  {
    if |s| > 0 && IsSpace(s[0]) {
      var rest := TrimLeftSplit(s[1..]);
      lead := [s[0]] + rest;
      SeqAssoc([s[0]], rest, TrimLeft(s[1..]));
      assert s == [s[0]] + s[1..];
      assert forall i :: 1 <= i < |lead| ==> lead[i] == rest[i - 1];
    } else {
      lead := [];
      assert s == [] + s;
    }
  }

  /** What `TrimRight` drops is white space. */
  lemma {:induction false} TrimRightSplit(s: string) returns (trail: string)
    ensures AllSpace(trail) && s == TrimRight(s) + trail
  {
    if |s| > 0 && IsSpace(s[|s| - 1]) {
      var init := s[..|s| - 1];
      var rest := TrimRightSplit(init);
      trail := rest + [s[|s| - 1]];
      SeqAssoc(TrimRight(init), rest, [s[|s| - 1]]);
      assert s == init + [s[|s| - 1]];
      assert forall i :: 0 <= i < |rest| ==> trail[i] == rest[i];
    } else {
      trail := [];
      assert s == s + [];
    }
  }

  /** Every string is its trimmed core surrounded by white space: with
      `TrimSpaceSurrounded` this pins `TrimSpace` down completely. */
  lemma TrimSpaceSlice(s: string) returns (lead: string, trail: string)
    ensures AllSpace(lead) && AllSpace(trail)
    ensures s == lead + TrimSpace(s) + trail
  {
    lead := TrimLeftSplit(s);
    var left := TrimLeft(s);
    trail := TrimRightSplit(left);
    SeqAssoc(lead, TrimRight(left), trail);
  }

  /** Trimming twice is trimming once. */
  lemma TrimSpaceIdempotent(s: string)
    ensures TrimSpace(TrimSpace(s)) == TrimSpace(s)
  {
    var r := TrimSpace(s);
    TrimSpacePadded(r, []);
    assert r + [] == r;
  }

  // ---------------------------------------------------------------------------
  // Removing one character

  /** Go's `strings.ReplaceAll(s, [c], "")`: `s` with every `c` removed and
      the other characters kept in order. */
  function RemoveAll(s: string, c: char): (r: string)
    ensures c !in r
    ensures |r| + Count(s, c) == |s|
  {
    if s == [] then []
    else if s[0] == c then RemoveAll(s[1..], c)
    else [s[0]] + RemoveAll(s[1..], c)
  }

  /** Removal keeps every other character. */
  lemma {:induction false} RemoveAllMembers(s: string, c: char, x: char)
    ensures x in RemoveAll(s, c) <==> x in s && x != c
  {
    if s != [] {
      RemoveAllMembers(s[1..], c, x);
      assert x in s <==> x == s[0] || x in s[1..];
    }
  }

  /** Removal distributes over concatenation. */
  lemma {:induction false} RemoveAllAppend(a: string, b: string, c: char)
    ensures RemoveAll(a + b, c) == RemoveAll(a, c) + RemoveAll(b, c)
  {
    if a != [] {
      assert (a + b)[1..] == a[1..] + b;
      RemoveAllAppend(a[1..], b, c);
    } else {
      assert a + b == b;
    }
  }

  /** A string without `c` is left alone. */
  lemma {:induction false} RemoveAllAbsent(s: string, c: char)
    requires c !in s
    ensures RemoveAll(s, c) == s
  {
    if s != [] {
      RemoveAllAbsent(s[1..], c);
    }
  }

  // ---------------------------------------------------------------------------
  // Splitting and joining on a one-character separator

  /** Go's `strings.Join(parts, [sep])`. */
  function Join(parts: seq<string>, sep: char): string {
    if parts == [] then []
    else if |parts| == 1 then parts[0]
    else parts[0] + [sep] + Join(parts[1..], sep)
  }

  /** Go's `strings.Split(s, [sep])`: the pieces between separators, at
      least one of them, none containing the separator. */
  function Split(s: string, sep: char): (r: seq<string>)
    ensures |r| == Count(s, sep) + 1
    ensures forall i :: 0 <= i < |r| ==> sep !in r[i]
  {
    if s == [] then [[]]
    else if s[0] == sep then
      var rest := Split(s[1..], sep);
      assert forall i :: 1 <= i < |rest| + 1 ==> ([[]] + rest)[i] == rest[i - 1];
      [[]] + rest
    else
      var rest := Split(s[1..], sep);
      var r := [[s[0]] + rest[0]] + rest[1..];
      assert forall i :: 1 <= i < |r| ==> r[i] == rest[i];
      r
  }

  /** Splitting introduces no character. */
  lemma {:induction false} SplitKeepsOut(s: string, sep: char, c: char)
    requires c !in s
    ensures forall i :: 0 <= i < |Split(s, sep)| ==> c !in Split(s, sep)[i]
  {
    if s != [] {
      SplitKeepsOut(s[1..], sep, c);
      var rest := Split(s[1..], sep);
      if s[0] != sep {
        var r := Split(s, sep);
        assert r[0] == [s[0]] + rest[0];
        assert forall i :: 1 <= i < |r| ==> r[i] == rest[i];
      }
    }
  }

  /** The pieces of blank text are blank. */
  lemma {:induction false} SplitBlank(s: string, sep: char)
    requires AllSpace(s)
    ensures forall i :: 0 <= i < |Split(s, sep)| ==> AllSpace(Split(s, sep)[i])
  {
    if s != [] {
      SplitBlank(s[1..], sep);
      var rest := Split(s[1..], sep);
      if s[0] != sep {
        var r := Split(s, sep);
        assert r[0] == [s[0]] + rest[0];
        assert forall i :: 1 <= i < |r| ==> r[i] == rest[i];
      }
    }
  }

  /** Joining the pieces with the separator gives back the text. */
  lemma {:induction false} JoinSplit(s: string, sep: char)
    ensures Join(Split(s, sep), sep) == s
  {
    if s != [] {
      var rest := Split(s[1..], sep);
      JoinSplit(s[1..], sep);
      if s[0] == sep {
        assert Split(s, sep) == [[]] + rest;
        assert ([[]] + rest)[1..] == rest;
      } else {
        var r := Split(s, sep);
        assert r[0] == [s[0]] + rest[0];
        if |rest| == 1 {
          assert s == [s[0]] + s[1..];
        } else {
          assert r[1..] == rest[1..];
          assert Join(rest, sep) == rest[0] + [sep] + Join(rest[1..], sep);
          assert s == [s[0]] + s[1..];
        }
      }
    }
  }

  /** Splitting at a separator that joins two texts. */
  lemma {:induction false} SplitAppend(a: string, b: string, sep: char)
    ensures Split(a + [sep] + b, sep) == Split(a, sep) + Split(b, sep)
  {
    var s := a + [sep] + b;
    SeqAssoc(a, [sep], b);
    if a == [] {
      assert s == [sep] + b;
      ConsAppend([sep], b);
    } else {
      ConsAppend(a, [sep] + b);
      SeqAssoc(a[1..], [sep], b);
      SplitAppend(a[1..], b, sep);
      var ra := Split(a[1..], sep);
      var rb := Split(b, sep);
      if a[0] != sep {
        ConsAppend(ra, rb);
        SeqAssoc([[a[0]] + ra[0]], ra[1..], rb);
      }
    }
  }

  /** Splitting the join of separator-free pieces gives back the pieces. */
  lemma {:induction false} SplitJoin(parts: seq<string>, sep: char)
    requires |parts| >= 1
    requires forall i :: 0 <= i < |parts| ==> sep !in parts[i]
    ensures Split(Join(parts, sep), sep) == parts
    decreases parts
  {
    if |parts| == 1 {
      SplitNoSeparator(parts[0], sep);
    } else {
      SplitJoin(parts[1..], sep);
      SplitPrefix(parts[0], Join(parts[1..], sep), sep);
      assert [parts[0]] + parts[1..] == parts;
    }
  }

  /** Text without the separator is one piece. */
  lemma {:induction false} SplitNoSeparator(s: string, sep: char)
    requires sep !in s
    ensures Split(s, sep) == [s]
  {
    if s != [] {
      SplitNoSeparator(s[1..], sep);
      assert [s[0]] + s[1..] == s;
    }
  }

  /** A separator-free piece followed by the separator is split off first. */
  lemma {:induction false} SplitPrefix(p: string, t: string, sep: char)
    requires sep !in p
    ensures Split(p + [sep] + t, sep) == [p] + Split(t, sep)
  {
    var s := p + [sep] + t;
    if p == [] {
      assert s == [sep] + t;
      assert s[1..] == t;
    } else {
      assert s[1..] == p[1..] + [sep] + t;
      SplitPrefix(p[1..], t, sep);
      assert [p[0]] + p[1..] == p;
    }
  }

  // ---------------------------------------------------------------------------
  // Substring search

  /** `sub` starts at position `i` of `s`. */
  predicate OccursAt(s: string, sub: string, i: int) {
    0 <= i && i + |sub| <= |s| && s[i..i + |sub|] == sub
  }

  /** Go's `strings.Contains`, as a left-to-right scan. */
  predicate Contains(s: string, sub: string)
    ensures Contains(s, sub) ==> |sub| <= |s|
    ensures sub == [] ==> Contains(s, sub)
  {
    (|sub| <= |s| && s[..|sub|] == sub) || (s != [] && Contains(s[1..], sub))
  }

  /** The scan finds `sub` exactly when it occurs somewhere in `s`. */
  lemma ContainsIff(s: string, sub: string)
    ensures Contains(s, sub) <==> exists i :: OccursAt(s, sub, i)
  {
    if Contains(s, sub) {
      var i := ContainsWitness(s, sub);
    }
    forall i | OccursAt(s, sub, i)
      ensures Contains(s, sub)
    {
      OccursContains(s, sub, i);
    }
  }

  /** Where the scan finds `sub`. */
  lemma {:induction false} ContainsWitness(s: string, sub: string) returns (i: nat)
    requires Contains(s, sub)
    ensures OccursAt(s, sub, i)
  {
    if |sub| <= |s| && s[..|sub|] == sub {
      i := 0;
    } else {
      var j := ContainsWitness(s[1..], sub);
      assert s[j + 1..j + 1 + |sub|] == s[1..][j..j + |sub|];
      i := j + 1;
    }
  }

  /** An occurrence anywhere is found by the scan. */
  lemma {:induction false} OccursContains(s: string, sub: string, i: int)
    requires OccursAt(s, sub, i)
    ensures Contains(s, sub)
    decreases i
  {
    if i > 0 {
      assert s[1..][i - 1..i - 1 + |sub|] == s[i..i + |sub|];
      OccursContains(s[1..], sub, i - 1);
    }
  }

  /** Text that embeds `sub` contains it. */
  lemma ContainsEmbedded(pre: string, sub: string, post: string)
    ensures Contains(pre + sub + post, sub)
  {
    var s := pre + sub + post;
    assert s[|pre|..|pre| + |sub|] == sub;
    assert OccursAt(s, sub, |pre|);
    ContainsIff(s, sub);
  }

  /** Dropping the head of a concatenation with a non-empty front. */
  lemma ConsAppend<T>(a: seq<T>, b: seq<T>)
    requires a != []
    ensures (a + b)[0] == a[0] && (a + b)[1..] == a[1..] + b
  {
  }

  /** Concatenation is associative. */
  lemma SeqAssoc<T>(a: seq<T>, b: seq<T>, c: seq<T>)
    ensures a + (b + c) == (a + b) + c
  {
  }

  /** Dropping `i` elements and then `j` more drops `i + j`. */
  lemma DropDrop<T>(s: seq<T>, i: nat, j: nat)
    requires i + j <= |s|
    ensures s[i..][j..] == s[i + j..]
  {
  }
}

=== FILE: transaction.dfy ===
/** The transfer each iteration builds and signs (main.go:68, 71, 83, 114, 117):
    a legacy transaction with fixed value, gas limit and gas price, the nonce
    just fetched and the freshly generated destination, signed for chain
    88817 under EIP-155. Signatures and hashes are foreign cryptography: a
    signed transaction is the transaction together with its chain ID. */
module Transaction {
  import opened Base

  /** `gasLimit` (main.go:68). */
  const GasLimit: u64 := 22000
  /** `gasPrice` in wei (main.go:71). */
  const GasPrice: nat := 900000
  /** `value` in wei (main.go:83). */
  const Value: nat := 427596
  /** The chain ID of the EIP-155 signer (main.go:117). */
  const ChainId: nat := 88817

  /** `types.NewTransaction(nonce, to, value, gasLimit, gasPrice, nil)`. */
  datatype Tx = Tx(nonce: u64, to: Address, value: nat, gasLimit: u64, gasPrice: nat, data: seq<bv8>)

  /** A transaction signed for one chain. */
  datatype SignedTx = SignedTx(tx: Tx, chainId: nat)

  /** A transfer as this program builds them: its fixed parameters, to `to`
      with nonce `nonce`. */
  predicate IsTransfer(stx: SignedTx, nonce: u64, to: Address) {
    && stx.tx.nonce == nonce && stx.tx.to == to
    && stx.tx.value == Value && stx.tx.gasLimit == GasLimit && stx.tx.gasPrice == GasPrice
    && stx.tx.data == [] && stx.chainId == ChainId
  }

  /** Build and sign the transfer of one iteration. */
  function NewTransfer(nonce: u64, to: Address): (stx: SignedTx)
    ensures IsTransfer(stx, nonce, to)
  {
    SignedTx(Tx(nonce, to, Value, GasLimit, GasPrice, []), ChainId)
  }

  /** Two transfers differ exactly when their nonces or destinations do. */
  lemma NewTransferInjective(n1: u64, to1: Address, n2: u64, to2: Address)
    ensures NewTransfer(n1, to1) == NewTransfer(n2, to2) <==> n1 == n2 && to1 == to2
  {
  }
}
